=== FILE: README.md ===
# ETL ingestion pipeline of the document chat tool, in Dafny

This project models the ingestion pipeline of `tools/etl.py`: the stage
that turns uploaded `.txt` and `.pdf` files into documents (`ETL.extract`),
chunks them (`ETL.transform`), and writes the chunks to a PGVector
collection in batches of 100 after a database connectivity check
(`check_db_conn`, `ETL.load`), all sequenced by `ETL.run`.

Everything the pipeline calls outside itself is a parameter:

- the directory walk is a sequence of `FileEntry(path, name)` values in walk order;
- the two loaders (`TextLoader`, `PyPDFLoader`) are functions from a path to
  either the list of documents they return (`Parsed`) or `Raised`. The
  pipeline reports a raising loader as `LoaderFailed(path)`;
- the text splitter is a function from documents to chunks, about which
  nothing is assumed;
- the services that `load` touches (`Backend`) are three outcomes. The first
  says whether the embedding client can be built. The second says whether
  `check_db_conn` can connect. The third says whether the store write of
  batch number k goes through.

Exceptions become values. Extraction and the run return
`Result<T> = Ok(value) | Err(error)`. The load stage returns an `Outcome`,
which is `Completed` or `Aborted(error)`. The database side of a run is
recorded as a trace of `Event`s: one `ConnectionCheck(reachable)`, then one
`StoreWrite(collection, connection, batch, succeeded)` per batch attempted.
Next to the trace, the report keeps `stored`, the batches written
successfully, in the order they were written. It also keeps the collection's
contents afterwards. A load or run is given what the collection held before
(`existing`), and writes only append, so the contents afterwards are
`existing` followed by the stored batches.

Files, one module each: `results.dfy` (errors and results), `documents.dfy`
(records), `batching.dfy` (the 100-slice comprehension), `extraction.dfy`
(`extract`), `loading.dfy` (`check_db_conn` and `load`), `etl.dfy` (`run`).

## Model

| member | source | states |
|---|---|---|
| Batching.Batches | tools/etl.py:69-72 | N chunks give ceil(N/100) batches, and none when N = 0. Every batch has 1 to 100 chunks. Every batch but the last has exactly 100. |
| Batching.BatchCountIsCeiling | tools/etl.py:71 | `range(0, n, size)` has ceil(n / size) values. |
| Batching.FlattenBatchesPrefix | tools/etl.py:70-72 | The first j batches, concatenated, are exactly the chunks before the j-th start offset. |
| Batching.BatchEntry | tools/etl.py:70-72 | Batch k starts inside the list, at k times the batch size, and ends at the next start or at the end of the list. This is the comprehension unfolded at one index. |
| Batching.FlattenBatches | tools/etl.py:70-72 | The batches, concatenated in order, give back the chunk list: nothing lost, duplicated or reordered. |
| Batching.SingleBatch | tools/etl.py:69-72 | A non-empty list of at most one batch size becomes exactly one batch. |
| Extraction.Classify | tools/etl.py:48-51 | The file goes to the text loader iff its name ends with `.txt`, and to the PDF loader iff it ends with `.pdf`. Any other file is skipped. |
| Extraction.SuffixesExclusive | tools/etl.py:48-51 | No name ends with both suffixes, so checking `.txt` first never hides a `.pdf` file. |
| Extraction.UpperCaseSuffixSkipped | tools/etl.py:48-53 | The suffix test is case-sensitive: `.PDF` and `.TXT` files contribute nothing. |
| Extraction.FirstDocument | tools/etl.py:49-52 | A raising loader fails the file with `LoaderFailed(path)`. An empty loader result is the index error `EmptyLoad(path)`. Otherwise only element 0 is kept, so a PDF gives its first page. |
| Extraction.LoadFile | tools/etl.py:47-53 | A `.txt` name is loaded with the text loader and a `.pdf` name with the PDF loader, both on the joined path. |
| Extraction.Selected | tools/etl.py:45-51 | The files kept all have a supported suffix, and there are no more of them than files walked. |
| Extraction.SelectedOne | tools/etl.py:46-51 | A one-file walk keeps the file iff its name ends with `.txt` or `.pdf`. |
| Extraction.SelectedAppend | tools/etl.py:45-46 | Selection distributes over concatenated walks, so it keeps walk order. With `SelectedOne` this makes `Selected` exactly the order-preserving filter of supported files. |
| Extraction.Extract | tools/etl.py:41-58 | On success there is exactly one document per supported file, in walk order, and it is the first one its loader returned. On failure the error is that of the first supported file whose load fails. It is always a loader failure or an empty load, never a database error. |
| Extraction.ExtractSucceedsIff | tools/etl.py:45-53 | Extraction succeeds iff every supported file loads to a non-empty list. |
| Extraction.UnsupportedFileIgnored | tools/etl.py:46-53 | A file with any other name, appended to the walk, leaves the result unchanged. |
| Extraction.SingleFileExtract | tools/etl.py:45-53 | A walk with one supported file, whose loader returns a non-empty list, yields exactly that file's first document. |
| Loading.CheckDbConn | tools/etl.py:15-27 | The check passes iff the database is reachable. Otherwise it raises the connection error. |
| Loading.WriteLoop | tools/etl.py:77-84 | The loop completes iff every batch write succeeds. Then it has made one write per batch and every batch is stored. If it aborts, the failed write is the last event and its batch number is the error. Every batch before it stays stored, since nothing is rolled back. |
| Loading.WriteLoopEvents | tools/etl.py:77-84 | Write i stores batch i, to the configured collection and connection. Every write before the last one succeeded. |
| Loading.Load | tools/etl.py:66-85 | If the embedding client cannot be built, there are no events. Otherwise the connectivity check is the first event and happens exactly once; every later event is a write to the configured collection. A failed check means zero writes. The load completes iff every batch write succeeds, and then every batch is written and stored exactly once, in order. Once the check has passed, every abort is a write failure. If write k fails, batches 0..k were attempted, 0..k-1 stay stored, and nothing after k is attempted. The collection afterwards is what it held before, followed by the stored batches. |
| Loading.LoadStoresEveryChunk | tools/etl.py:69-84 | With the embedding client built, the database reachable and every batch write going through, the load completes. It has stored every chunk exactly once, in order, and the collection holds its earlier contents followed by the chunks. |
| Loading.LoadKeepsEarlierBatches | tools/etl.py:69-84 | With the check passing, writes 0..k-1 going through and write k failing, the load raises the failure of write k. The collection holds its earlier contents followed by exactly the first 100·k chunks. |
| Loading.EmptyLoadStillChecks | tools/etl.py:69-77 | With the embedding client built and no chunks, the connectivity check still runs, and its result alone decides the outcome. |
| Loading.SingleBatchLoad | tools/etl.py:69-84 | With the embedding client built, the database reachable and write 0 going through, 1 to 100 chunks take one check and one write, and the load completes. |
| Etl.Run | tools/etl.py:87-91 | A failed extraction raises before the database is touched. Otherwise `load` runs on the splitter's chunks of the extracted documents. A failed load's error propagates out of `run` unchanged. A successful run returns the number of supported files, not the number of chunks. The run raises the connection error iff extraction succeeded, the embedding client was built and the database is unreachable. |
| Etl.RunStoresAllChunks | tools/etl.py:87-91 | A successful run stores exactly the splitter's output for the extracted documents, in order, after what the collection already held. |
| Etl.RunCountIgnoresChunking | tools/etl.py:87-91 | Two successful runs that differ only in the splitter return the same count. |
| Etl.UnreachableStoreWritesNothing | tools/etl.py:74-91 | With the database unreachable, the run fails, no write is attempted and the collection is unchanged. If the embedding client was built and extraction succeeded, the error is the connection error. |
| Etl.ReingestionDuplicates | tools/etl.py:77-91 | A successful run repeated over the same files, with the services behaving as in the first run, on the collection the first run left, succeeds again with the same count. The collection then holds its original contents followed by every chunk twice. |
| Etl.SingleTextFileRun | tools/etl.py:87-91 | One `.txt` file whose text loader returns one document, split into three chunks, run on an empty collection. With the embedding client built, the database reachable and write 0 going through, this gives one check, one write of all three chunks, a collection of those three chunks, and a result of 1. |

## Left out

- Directory walking: `os.walk`'s order and recursion, and `os.path.join`. The walk is a given sequence of (path, name) pairs.
- Text and PDF parsing, and what the loaders put in metadata. The loaders are given functions. Which exception a loader raises is not modelled: every raise is `LoaderFailed(path)`.
- `RecursiveCharacterTextSplitter` (chunk size 1000, overlap 200, start index). The model claims nothing about chunk lengths, overlap or `start_index`: this is library code. The splitter is a total function, so `ETL.transform` is taken never to raise.
- Embedding, `PGVector.from_documents` internals, and collection creation. One write is one outcome (success or failure), indexed by batch number rather than by batch content. A failed write is modelled as committing nothing of its batch, since how much a failing call stored is up to the library. That a write to an existing collection adds to it, since `pre_delete_collection` is not set, is also library behaviour, taken as given.
- `check_db_conn` catches only `psycopg2.OperationalError`, but every exception it can raise propagates unchanged, so all failures become the single `ConnectionFailed`. The connection it opens and never closes is not modelled. Host, database name and credentials are not modelled either. The check connects to a fixed local database (tools/etl.py:18-23), while the writes use `CONNECTION_STRING` (tools/etl.py:82). The two may be different databases, so `dbReachable` and `writeSucceeds` are independent: a passed check says nothing about where the writes go.
- Environment configuration (`load_dotenv`, `DB_USER`, `DB_PASSWORD`, `CONNECTION_STRING`, `COLLECTION_NAME`): the collection and connection are a given `Config`. A missing variable, which would be `None`, is not modelled.
- `print` logging and the `tqdm` progress bar. These are output only.
- `app.py`: upload saving, the UI, session state, the retrieval chain and the chat loop. These are presentation and foreign library calls.
- `ETL.load` builds the embedding client (tools/etl.py:68) and cuts the batches before it calls `check_db_conn`. Building the client can fail, and the model then raises `EmbedderUnavailable` before any event.

=== FILE: batching.dfy ===
/** Fixed-size batching of the chunk list before it is written to the vector
    store: the list comprehension `[s[i : i + size] for i in range(0, len(s), size)]`
    of tools/etl.py, with Python's clamping slice semantics written out. */
module Batching {

  function Min(a: int, b: int): int
  {
    if a <= b then a else b
  }

  /** Number of values produced by Python's `range(0, n, size)`. */
  function BatchCount(n: nat, size: nat): nat
    requires size > 0
    decreases n
  {
    if n == 0 then 0 else if n <= size then 1 else 1 + BatchCount(n - size, size)
  }

  /** Value number k of `range(0, n, size)`, i.e. `k * size`, built by repeated
      addition so that the proofs below stay in linear arithmetic. */
  function Offset(k: nat, size: nat): nat
  {
    if k == 0 then 0 else Offset(k - 1, size) + size
  }

  lemma {:induction false} OffsetIsProduct(k: nat, size: nat)
    ensures Offset(k, size) == k * size
  {
    if k > 0 {
      OffsetIsProduct(k - 1, size);
      assert k * size == (k - 1) * size + size;
    }
  }

  lemma {:induction false} MulMonotone(a: nat, b: nat, d: nat)
    requires a <= b
    ensures a * d <= b * d
    decreases b - a
  {
    if a < b {
      MulMonotone(a, b - 1, d);
      assert b * d == (b - 1) * d + d;
    }
  }

  /** Euclidean division is determined by any quotient/remainder pair. */
  lemma DivisionUnique(x: nat, d: nat, q: nat, r: nat)
    requires 0 <= r < d
    requires x == q * d + r
    ensures x / d == q
  {
    var q' := x / d;
    var r' := x % d;
    assert x == q' * d + r';
    if q' < q {
      MulMonotone(q' + 1, q, d);
      assert false;
    } else if q' > q {
      MulMonotone(q + 1, q', d);
      assert false;
    }
  }

  /** The length of the range is ceil(n / size). */
  lemma {:induction false} BatchCountIsCeiling(n: nat, size: nat)
    requires size > 0
    ensures BatchCount(n, size) == (n + size - 1) / size
    decreases n
  {
    if n == 0 {
      DivisionUnique(size - 1, size, 0, size - 1);
    } else if n <= size {
      DivisionUnique(n + size - 1, size, 1, n - 1);
    } else {
      BatchCountIsCeiling(n - size, size);
      var q := (n - 1) / size;
      var r := (n - 1) % size;
      assert n - 1 == q * size + r;
      assert n + size - 1 == (q + 1) * size + r;
      DivisionUnique(n + size - 1, size, q + 1, r);
    }
  }

  /** Every start offset of the range lies inside the list, and every slice
      but the last one is cut at `start + size`, not clamped to the list. */
  lemma {:induction false} BatchStart(n: nat, size: nat, k: nat)
    requires size > 0
    requires k < BatchCount(n, size)
    ensures Offset(k, size) < n
    ensures k + 1 < BatchCount(n, size) ==> Offset(k, size) + size < n
    decreases k
  {
    if k > 0 {
      BatchStart(n - size, size, k - 1);
    }
  }

  /** Batch number k: `s[k * size .. min(k * size + size, |s|)]`. */
  function BatchAt<T>(s: seq<T>, size: nat, k: nat): (b: seq<T>)
    requires size > 0
    requires k < BatchCount(|s|, size)
    ensures 0 < |b| <= size
    ensures k + 1 < BatchCount(|s|, size) ==> |b| == size
  {
    BatchStart(|s|, size, k);
    s[Offset(k, size) .. Min(Offset(k, size) + size, |s|)]
  }

  /** The slices of the comprehension, one per value of the range. */
  function Batches<T>(s: seq<T>, size: nat): (r: seq<seq<T>>)
    requires size > 0
    ensures |r| == (|s| + size - 1) / size
    ensures |r| == 0 <==> |s| == 0
    ensures forall k :: 0 <= k < |r| ==> 0 < |r[k]| <= size
    ensures forall k :: 0 <= k < |r| - 1 ==> |r[k]| == size
  {
    BatchCountIsCeiling(|s|, size);
    var q := BatchCount(|s|, size);
    seq(q, k requires 0 <= k < q => BatchAt(s, size, k))
  }

  /** Concatenation of a sequence of sequences, in order. */
  function Flatten<T>(ss: seq<seq<T>>): seq<T>
  {
    if |ss| == 0 then [] else Flatten(ss[..|ss| - 1]) + ss[|ss| - 1]
  }

  lemma {:induction false} FlattenAppend<T>(a: seq<seq<T>>, b: seq<seq<T>>)
    ensures Flatten(a + b) == Flatten(a) + Flatten(b)
    decreases |b|
  {
    if |b| == 0 {
      assert a + b == a;
    } else {
      var b' := b[..|b| - 1];
      assert (a + b)[..|a + b| - 1] == a + b';
      FlattenAppend(a, b');
    }
  }

  /** Appending one sequence at the end appends its elements at the end. */
  lemma FlattenSnoc<T>(ss: seq<seq<T>>, s: seq<T>)
    ensures Flatten(ss + [s]) == Flatten(ss) + s
  {
    assert (ss + [s])[..|ss|] == ss;
  }

  lemma FlattenStep<T>(ss: seq<seq<T>>, j: nat)
    requires 0 < j <= |ss|
    ensures Flatten(ss[..j]) == Flatten(ss[..j - 1]) + ss[j - 1]
  {
    assert ss[..j][..j - 1] == ss[..j - 1];
  }

  lemma SliceJoin<T>(s: seq<T>, a: nat, b: nat)
    requires a <= b <= |s|
    ensures s[..a] + s[a..b] == s[..b]
  {
  }

  /** Batch number k of the comprehension, as a slice of the list that starts
      inside it: the sequence constructor of `Batches` unfolded at one index. */
  lemma BatchEntry<T>(s: seq<T>, size: nat, k: nat)
    requires size > 0
    requires k < |Batches(s, size)|
    ensures Offset(k, size) < |s|
    ensures Batches(s, size)[k] == s[Offset(k, size) .. Min(Offset(k, size) + size, |s|)]
  {
    BatchCountIsCeiling(|s|, size);
    BatchStart(|s|, size, k);
  }

  /** The first j batches, concatenated, are exactly the list up to the j-th
      value of the range (clamped to the list). */
  lemma {:induction false} FlattenBatchesPrefix<T>(s: seq<T>, size: nat, j: nat)
    requires size > 0
    requires j <= |Batches(s, size)|
    ensures Flatten(Batches(s, size)[..j]) == s[..Min(Offset(j, size), |s|)]
  {
    var bs := Batches(s, size);
    if j == 0 {
      assert bs[..0] == [];
    } else {
      FlattenBatchesPrefix(s, size, j - 1);
      FlattenStep(bs, j);
      BatchEntry(s, size, j - 1);
      var a := Offset(j - 1, size);
      SliceJoin(s, a, Min(a + size, |s|));
    }
  }

  /** The range runs past the end of the list: its length-th value is at least n. */
  lemma {:induction false} RangeCoversList(n: nat, size: nat)
    requires size > 0
    ensures n <= Offset(BatchCount(n, size), size)
    decreases n
  {
    if n > size {
      RangeCoversList(n - size, size);
      OffsetShift(BatchCount(n - size, size), size);
    }
  }

  lemma {:induction false} OffsetShift(k: nat, size: nat)
    ensures Offset(k + 1, size) == Offset(k, size) + size
  {
  }

  /** Batching loses, duplicates and reorders nothing: the batches in order
      concatenate back to the original list. */
  lemma FlattenBatches<T>(s: seq<T>, size: nat)
    requires size > 0
    ensures Flatten(Batches(s, size)) == s
  {
    var bs := Batches(s, size);
    FlattenBatchesPrefix(s, size, |bs|);
    RangeCoversList(|s|, size);
    assert bs[..|bs|] == bs;
  }

  /** A non-empty list no longer than one batch becomes exactly one batch. */
  lemma SingleBatch<T>(s: seq<T>, size: nat)
    requires size > 0
    requires 0 < |s| <= size
    ensures Batches(s, size) == [s]
  {
    var bs := Batches(s, size);
    assert |bs| == BatchCount(|s|, size) == 1;
    assert Offset(0, size) == 0;
    assert bs[0] == BatchAt(s, size, 0) == s[0 .. Min(size, |s|)] == s;
  }
}

=== FILE: documents.dfy ===
/** The records that flow through the pipeline. */
module Documents {

  /** A loaded document or a chunk of one (both are langchain Documents):
      its text and its metadata (source path, page, start index, ...). */
  datatype Document = Document(content: string, metadata: map<string, string>)

  /** One file reported by the directory walk: the path handed to the loader
      and the bare file name whose suffix selects the loader. */
  datatype FileEntry = FileEntry(path: string, name: string)
}

=== FILE: etl.dfy ===
/** `ETL.run` of tools/etl.py: extract, then transform, then load, returning
    the number of extracted documents. The splitter behind `transform` is a
    parameter about which nothing is assumed. */
module Etl {
  import opened Results
  import opened Documents
  import opened Batching
  import opened Extraction
  import opened Loading

  /** `RecursiveCharacterTextSplitter.split_documents`: documents to chunks. */
  type Splitter = seq<Document> -> seq<Document>

  /** Everything the pipeline reaches outside itself. */
  datatype Environment = Environment(
    loadText: Loader,
    loadPdf: Loader,
    split: Splitter,
    config: Config,
    backend: Backend)

  /** The database contacts of a run, the batches it stored, the collection's
      contents afterwards, and what `run` returns or raises. */
  datatype RunReport = RunReport(
    events: seq<Event>,
    stored: seq<seq<Document>>,
    collection: seq<Document>,
    result: Result<nat>)

  /** `self.extract()` as seen from `run`: `Extract` with the loaders of the
      environment, named so that the contracts below stay readable. */
  function Extracted(files: seq<FileEntry>, env: Environment): Result<seq<Document>>
  {
    Extract(files, env.loadText, env.loadPdf)
  }

  /** `ETL.run`, on a collection that already holds `existing`. A failed
      extraction raises before the database is touched; otherwise the chunks
      the splitter makes of the extracted documents are loaded, and a
      completed load returns the number of extracted documents (one per
      supported file), whatever the number of chunks. */
  function Run(files: seq<FileEntry>, env: Environment, existing: seq<Document>): (r: RunReport)
    ensures r.collection == existing + Flatten(r.stored)
    ensures Extracted(files, env).Err? ==> r == RunReport([], [], existing, Err(Extracted(files, env).error))
    ensures r.result.Ok? ==> r.result.value == |Selected(files)|
    ensures r.result.Ok? <==>
      && Extracted(files, env).Ok?
      && Load(env.split(Extracted(files, env).value), env.config, env.backend, existing).outcome.Completed?
    ensures Extracted(files, env).Ok? ==>
      var loaded := Load(env.split(Extracted(files, env).value), env.config, env.backend, existing);
      && r.events == loaded.events
      && r.stored == loaded.stored
      && (r.result.Err? ==> r.result.error == loaded.outcome.error)
    ensures r.result == Err(ConnectionFailed) <==>
      Extracted(files, env).Ok? && env.backend.embedderReady && !env.backend.dbReachable
  {
    match Extracted(files, env)
    case Err(e) => RunReport([], [], existing, Err(e))
    case Ok(docs) =>
      var loaded := Load(env.split(docs), env.config, env.backend, existing);
      RunReport(loaded.events, loaded.stored, loaded.collection,
                if loaded.outcome.Completed? then Ok(|docs|) else Err(loaded.outcome.error))
  }

  /** A successful run has stored, in order, exactly the chunks that the
      splitter made of the extracted documents, after what the collection
      already held. */
  lemma RunStoresAllChunks(files: seq<FileEntry>, env: Environment, existing: seq<Document>)
    requires Run(files, env, existing).result.Ok?
    ensures Flatten(Run(files, env, existing).stored) == env.split(Extracted(files, env).value)
    ensures Run(files, env, existing).collection == existing + env.split(Extracted(files, env).value)
  {
    LoadStoresEveryChunk(env.split(Extracted(files, env).value), env.config, env.backend, existing);
  }

  /** The returned count does not depend on the splitter: two runs that
      differ only in how documents are chunked return the same number. */
  lemma RunCountIgnoresChunking(files: seq<FileEntry>, env: Environment, other: Splitter, existing: seq<Document>)
    requires Run(files, env, existing).result.Ok?
    requires Run(files, env.(split := other), existing).result.Ok?
    ensures Run(files, env, existing).result == Run(files, env.(split := other), existing).result
  {
  }

  /** When the database is unreachable the run fails, no batch is handed to
      the store and the collection is unchanged; once the embedding client
      is built and extraction succeeded, the error is the connection error. */
  lemma UnreachableStoreWritesNothing(files: seq<FileEntry>, env: Environment, existing: seq<Document>)
    requires !env.backend.dbReachable
    ensures Run(files, env, existing).result.Err?
    ensures forall i :: 0 <= i < |Run(files, env, existing).events| ==> !Run(files, env, existing).events[i].StoreWrite?
    ensures Run(files, env, existing).stored == []
    ensures Run(files, env, existing).collection == existing
    ensures env.backend.embedderReady && Extracted(files, env).Ok? ==>
      Run(files, env, existing).result.error == ConnectionFailed
  {
  }

  /** Ingestion is append-only: a successful run repeated over the same
      files, with the services behaving as in the first run, on the
      collection the first run left, succeeds again and leaves every chunk
      in the collection twice, after what it held at first. */
  lemma ReingestionDuplicates(files: seq<FileEntry>, env: Environment, existing: seq<Document>)
    requires Run(files, env, existing).result.Ok?
    ensures var first := Run(files, env, existing);
      var second := Run(files, env, first.collection);
      var chunks := env.split(Extracted(files, env).value);
      && second.result == first.result
      && second.collection == existing + chunks + chunks
  {
    var first := Run(files, env, existing);
    var chunks := env.split(Extracted(files, env).value);
    RunStoresAllChunks(files, env, existing);
    assert Run(files, env, first.collection).result.Ok?;
    RunStoresAllChunks(files, env, first.collection);
  }

  /** One text file whose document the splitter cuts into three chunks: one
      batch is written and the run returns 1, not 3. */
  lemma SingleTextFileRun(path: string, doc: Document, c0: Document, c1: Document, c2: Document, env: Environment)
    requires env.loadText(path) == Parsed([doc])
    requires env.split([doc]) == [c0, c1, c2]
    requires env.backend.embedderReady && env.backend.dbReachable && env.backend.writeSucceeds(0)
    ensures Run([FileEntry(path, "notes.txt")], env, []) ==
      RunReport([ConnectionCheck(true), StoreWrite(env.config.collection, env.config.connection, [c0, c1, c2], true)],
                [[c0, c1, c2]], [c0, c1, c2], Ok(1))
  {
    assert EndsWith("notes.txt", TextSuffix);
    SingleFileExtract(FileEntry(path, "notes.txt"), env.loadText, env.loadPdf);
    SingleBatchLoad([c0, c1, c2], env.config, env.backend, []);
    assert [] + [c0, c1, c2] == [c0, c1, c2];
  }
}

=== FILE: extraction.dfy ===
/** The extract stage of tools/etl.py: walk the staging files in order and
    keep the first document of each `.txt` or `.pdf` file. The directory walk
    is given as a sequence of entries; the two loaders are parameters. */
module Extraction {
  import opened Results
  import opened Documents

  const TextSuffix: string := ".txt"
  const PdfSuffix: string := ".pdf"

  /** Python's `str.endswith`: case-sensitive comparison of the last characters. */
  predicate EndsWith(s: string, suffix: string)
  {
    |suffix| <= |s| && s[|s| - |suffix|..] == suffix
  }

  /** Which loader a file goes to. */
  datatype Kind = Text | Pdf | Unsupported

  /** What a loader call does: return the parsed documents, or raise. */
  datatype LoadResult = Parsed(docs: seq<Document>) | Raised

  /** A loader (`TextLoader(path).load()` or `PyPDFLoader(path).load()`):
      what it does for a path. */
  type Loader = string -> LoadResult

  /** A name cannot end with both suffixes, so checking `.txt` first never
      hides a `.pdf` file. */
  lemma SuffixesExclusive(name: string)
    ensures !(EndsWith(name, TextSuffix) && EndsWith(name, PdfSuffix))
  {
  }

  /** The suffix dispatch: `.txt` is checked first, then `.pdf`. */
  function Classify(name: string): (k: Kind)
    ensures k == Text <==> EndsWith(name, TextSuffix)
    ensures k == Pdf <==> EndsWith(name, PdfSuffix)
    ensures k == Unsupported <==> !EndsWith(name, TextSuffix) && !EndsWith(name, PdfSuffix)
  {
    SuffixesExclusive(name);
    if EndsWith(name, TextSuffix) then Text
    else if EndsWith(name, PdfSuffix) then Pdf
    else Unsupported
  }

  predicate Supported(f: FileEntry)
  {
    Classify(f.name) != Unsupported
  }

  /** Upper-case suffixes are not recognised: `report.PDF` is skipped. */
  lemma UpperCaseSuffixSkipped(name: string)
    requires EndsWith(name, ".PDF") || EndsWith(name, ".TXT")
    ensures Classify(name) == Unsupported
  {
  }

  /** `loader(path).load()[0]`: a raising loader fails the file, an empty
      result is an index error, otherwise only the first document is kept
      (for a PDF, its first page). */
  function FirstDocument(path: string, loaded: LoadResult): (r: Result<Document>)
    ensures r.Ok? <==> loaded.Parsed? && |loaded.docs| > 0
    ensures r.Ok? ==> r.value == loaded.docs[0]
    ensures loaded.Raised? ==> r == Err(LoaderFailed(path))
    ensures loaded == Parsed([]) ==> r == Err(EmptyLoad(path))
  {
    match loaded
    case Raised => Err(LoaderFailed(path))
    case Parsed(docs) => if |docs| == 0 then Err(EmptyLoad(path)) else Ok(docs[0])
  }

  /** The document that one supported file contributes, or the error its
      loader raises. */
  function LoadFile(f: FileEntry, loadText: Loader, loadPdf: Loader): (r: Result<Document>)
    requires Supported(f)
    ensures EndsWith(f.name, TextSuffix) ==> r == FirstDocument(f.path, loadText(f.path))
    ensures EndsWith(f.name, PdfSuffix) ==> r == FirstDocument(f.path, loadPdf(f.path))
    ensures r.Err? ==> r.error == LoaderFailed(f.path) || r.error == EmptyLoad(f.path)
  {
    if Classify(f.name) == Text then FirstDocument(f.path, loadText(f.path))
    else FirstDocument(f.path, loadPdf(f.path))
  }

  /** The files of the walk that have a supported suffix, in walk order. */
  function Selected(files: seq<FileEntry>): (r: seq<FileEntry>)
    ensures |r| <= |files|
    ensures forall i :: 0 <= i < |r| ==> Supported(r[i])
  {
    if |files| == 0 then []
    else
      var f := files[|files| - 1];
      Selected(files[..|files| - 1]) + (if Supported(f) then [f] else [])
  }

  /** A one-file walk keeps the file iff its suffix is supported; with
      `SelectedAppend` this pins `Selected` down as the order-preserving filter. */
  lemma SelectedOne(f: FileEntry)
    ensures Selected([f]) == if Supported(f) then [f] else []
  {
    assert [f][..0] == [];
  }

  /** Selection commutes with concatenating walks, so it keeps walk order. */
  lemma {:induction false} SelectedAppend(a: seq<FileEntry>, b: seq<FileEntry>)
    ensures Selected(a + b) == Selected(a) + Selected(b)
    decreases |b|
  {
    if |b| == 0 {
      assert a + b == a;
    } else {
      var b' := b[..|b| - 1];
      assert (a + b)[..|a + b| - 1] == a + b';
      SelectedAppend(a, b');
    }
  }

  /** Among the selected files `sel`, number k is the first whose load
      fails, and it fails with error e. */
  predicate FailsFirstAt(sel: seq<FileEntry>, k: nat, e: Error, loadText: Loader, loadPdf: Loader)
    requires forall i :: 0 <= i < |sel| ==> Supported(sel[i])
  {
    && k < |sel|
    && LoadFile(sel[k], loadText, loadPdf) == Err(e)
    && forall j :: 0 <= j < k ==> LoadFile(sel[j], loadText, loadPdf).Ok?
  }

  /** One supported file appended to a walk whose extraction succeeded:
      its position among the selected files is the number of documents so far. */
  lemma ExtendOne(prefix: seq<FileEntry>, f: FileEntry, docs: seq<Document>, loadText: Loader, loadPdf: Loader)
    requires Supported(f)
    requires |docs| == |Selected(prefix)|
    requires forall i :: 0 <= i < |Selected(prefix)| ==>
      LoadFile(Selected(prefix)[i], loadText, loadPdf) == Ok(docs[i])
    ensures Selected(prefix + [f]) == Selected(prefix) + [f]
    ensures LoadFile(f, loadText, loadPdf).Err? ==>
      FailsFirstAt(Selected(prefix + [f]), |docs|, LoadFile(f, loadText, loadPdf).error, loadText, loadPdf)
  {
    assert (prefix + [f])[..|prefix + [f]| - 1] == prefix;
  }

  /** A failure found in a walk is still the first failure after one more
      file is appended to the walk. */
  lemma KeepFirstFailure(prefix: seq<FileEntry>, f: FileEntry, e: Error, loadText: Loader, loadPdf: Loader)
    requires exists k :: FailsFirstAt(Selected(prefix), k, e, loadText, loadPdf)
    ensures exists k :: FailsFirstAt(Selected(prefix + [f]), k, e, loadText, loadPdf)
  {
    assert (prefix + [f])[..|prefix + [f]| - 1] == prefix;
    var k :| FailsFirstAt(Selected(prefix), k, e, loadText, loadPdf);
    assert Selected(prefix + [f])[..|Selected(prefix)|] == Selected(prefix);
    assert FailsFirstAt(Selected(prefix + [f]), k, e, loadText, loadPdf);
  }

  /** `ETL.extract`: the files are visited in walk order and the first error
      raised by a loader aborts the stage. On success there is exactly one
      document per supported file, the first document its loader returned,
      in walk order; on failure the error is that of the first supported
      file whose load fails. */
  function Extract(files: seq<FileEntry>, loadText: Loader, loadPdf: Loader): (r: Result<seq<Document>>)
    ensures r.Ok? ==>
      && |r.value| == |Selected(files)|
      && forall i :: 0 <= i < |Selected(files)| ==>
           LoadFile(Selected(files)[i], loadText, loadPdf) == Ok(r.value[i])
    ensures r.Err? ==> exists k :: FailsFirstAt(Selected(files), k, r.error, loadText, loadPdf)
    ensures r.Err? ==> r.error.LoaderFailed? || r.error.EmptyLoad?
  {
    if |files| == 0 then Ok([])
    else
      var prefix := files[..|files| - 1];
      var before := Extract(prefix, loadText, loadPdf);
      var f := files[|files| - 1];
      assert files == prefix + [f];
      if before.Err? then
        KeepFirstFailure(prefix, f, before.error, loadText, loadPdf);
        before
      else if !Supported(f) then
        assert Selected(files) == Selected(prefix);
        before
      else
        ExtendOne(prefix, f, before.value, loadText, loadPdf);
        match LoadFile(f, loadText, loadPdf)
        case Err(e) =>
          assert FailsFirstAt(Selected(files), |before.value|, e, loadText, loadPdf);
          Err(e)
        case Ok(d) => Ok(before.value + [d])
  }

  /** Extraction succeeds exactly when every supported file loads. */
  lemma ExtractSucceedsIff(files: seq<FileEntry>, loadText: Loader, loadPdf: Loader)
    ensures Extract(files, loadText, loadPdf).Ok? <==>
      forall i :: 0 <= i < |Selected(files)| ==> LoadFile(Selected(files)[i], loadText, loadPdf).Ok?
  {
    var sel := Selected(files);
    var r := Extract(files, loadText, loadPdf);
    if r.Err? {
      var k :| FailsFirstAt(sel, k, r.error, loadText, loadPdf);
    }
  }

  /** A file with an unsupported name contributes nothing: appending it to
      the walk leaves the extraction unchanged. */
  lemma UnsupportedFileIgnored(files: seq<FileEntry>, f: FileEntry, loadText: Loader, loadPdf: Loader)
    requires !Supported(f)
    ensures Extract(files + [f], loadText, loadPdf) == Extract(files, loadText, loadPdf)
  {
    assert (files + [f])[..|files + [f]| - 1] == files;
  }

  /** A walk of one supported file yields the first document its loader returns. */
  lemma SingleFileExtract(f: FileEntry, loadText: Loader, loadPdf: Loader)
    requires Supported(f)
    requires LoadFile(f, loadText, loadPdf).Ok?
    ensures Extract([f], loadText, loadPdf) == Ok([LoadFile(f, loadText, loadPdf).value])
  {
    var files := [f];
    assert files[..0] == [];
    assert Extract(files[..0], loadText, loadPdf) == Ok([]);
    var d := LoadFile(f, loadText, loadPdf).value;
    assert [] + [d] == [d];
  }
}

=== FILE: loading.dfy ===
/** The load stage of tools/etl.py (`check_db_conn` and `ETL.load`): cut the
    chunk list into batches of 100, check that the database is reachable,
    then write the batches to the vector store one after the other. What the
    stage does to the outside world is recorded as a trace of events together
    with the batches the collection gains. */
module Loading {
  import opened Results
  import opened Documents
  import opened Batching

  /** `chunks = 100` in ETL.load. */
  const BatchSize: nat := 100

  /** Where the batches go: the collection name and the connection string. */
  datatype Config = Config(collection: string, connection: string)

  /** The external services as load sees them: whether the embedding client
      can be constructed, whether `check_db_conn` can connect, and whether the
      store write of batch number k (embedding included) succeeds. */
  datatype Backend = Backend(embedderReady: bool, dbReachable: bool, writeSucceeds: nat -> bool)

  /** A contact with the database: the connectivity check, or one store write
      of a batch to a collection, with whether it went through. */
  datatype Event =
    | ConnectionCheck(reachable: bool)
    | StoreWrite(collection: string, connection: string, batch: seq<Document>, succeeded: bool)

  /** The database contacts of a load, in order; the batches the load stored,
      in order of writing; the collection's contents afterwards; and whether
      the load returned or raised. */
  datatype LoadReport = LoadReport(
    events: seq<Event>,
    stored: seq<seq<Document>>,
    collection: seq<Document>,
    outcome: Outcome)

  /** What the write loop does: its store writes, the batches that went
      through, and whether it ran to the end or raised. */
  datatype WriteReport = WriteReport(events: seq<Event>, stored: seq<seq<Document>>, outcome: Outcome)

  /** `check_db_conn`: connecting either succeeds or the database error is
      re-raised to the caller. */
  function CheckDbConn(backend: Backend): (r: Outcome)
    ensures r.Completed? <==> backend.dbReachable
    ensures r.Aborted? ==> r.error == ConnectionFailed
  {
    if backend.dbReachable then Completed else Aborted(ConnectionFailed)
  }

  /** The `for chunk in all_splits_chunks` loop over the batches `bs`: one
      store write per batch, in order; the first write that raises ends the
      loop, since there is no handler, and the batches stored before it stay. */
  function WriteLoop(bs: seq<seq<Document>>, cfg: Config, writeSucceeds: nat -> bool): (r: WriteReport)
    ensures |r.events| <= |bs|
    ensures r.outcome.Completed? <==> forall k :: 0 <= k < |bs| ==> writeSucceeds(k)
    ensures r.outcome.Completed? ==> |r.events| == |bs| && r.stored == bs
    ensures r.outcome.Aborted? ==>
      && 0 < |r.events|
      && !writeSucceeds(|r.events| - 1)
      && r.outcome.error == WriteFailed(|r.events| - 1)
      && r.stored == bs[..|r.events| - 1]
  {
    if |bs| == 0 then WriteReport([], [], Completed)
    else
      var k := |bs| - 1;
      var before := WriteLoop(bs[..k], cfg, writeSucceeds);
      if before.outcome.Aborted? then before
      else
        var ok := writeSucceeds(k);
        var events := before.events + [StoreWrite(cfg.collection, cfg.connection, bs[k], ok)];
        if ok then
          assert bs[..k] + [bs[k]] == bs;
          WriteReport(events, before.stored + [bs[k]], Completed)
        else
          WriteReport(events, before.stored, Aborted(WriteFailed(k)))
  }

  /** Each event of the write loop is the store write of the batch with the
      same number, to the configured collection and connection, and every
      write before the last one went through. */
  lemma {:induction false} WriteLoopEvents(bs: seq<seq<Document>>, cfg: Config, writeSucceeds: nat -> bool)
    ensures forall i :: 0 <= i < |WriteLoop(bs, cfg, writeSucceeds).events| ==>
      WriteLoop(bs, cfg, writeSucceeds).events[i] ==
        StoreWrite(cfg.collection, cfg.connection, bs[i], writeSucceeds(i))
    ensures forall i :: 0 <= i < |WriteLoop(bs, cfg, writeSucceeds).events| - 1 ==> writeSucceeds(i)
    decreases |bs|
  {
    if |bs| > 0 {
      var k := |bs| - 1;
      var r := WriteLoop(bs, cfg, writeSucceeds);
      var before := WriteLoop(bs[..k], cfg, writeSucceeds);
      WriteLoopEvents(bs[..k], cfg, writeSucceeds);
      if before.outcome.Completed? {
        var e := StoreWrite(cfg.collection, cfg.connection, bs[k], writeSucceeds(k));
        assert r.events == before.events + [e];
        assert |before.events| == k;
      } else {
        assert r == before;
      }
    }
  }

  /** `ETL.load`: the embedding client is constructed and the batches are
      cut first; then the connectivity check runs exactly once, before any
      write, and a failed check aborts with nothing written, even when there
      is nothing to write; then the write loop runs over the batches, and
      a failed write leaves the earlier batches stored. Writes only add to
      the collection: afterwards it holds what it held before, `existing`,
      followed by the stored batches in order. */
  function Load(chunks: seq<Document>, cfg: Config, backend: Backend, existing: seq<Document>): (r: LoadReport)
    ensures r.collection == existing + Flatten(r.stored)
    ensures !backend.embedderReady ==> r == LoadReport([], [], existing, Aborted(EmbedderUnavailable))
    ensures backend.embedderReady ==> 0 < |r.events| && r.events[0] == ConnectionCheck(backend.dbReachable)
    ensures forall i :: 0 < i < |r.events| ==>
      && i - 1 < |Batches(chunks, BatchSize)|
      && r.events[i] == StoreWrite(cfg.collection, cfg.connection, Batches(chunks, BatchSize)[i - 1],
                                   backend.writeSucceeds(i - 1))
    ensures backend.embedderReady && !backend.dbReachable ==>
      r == LoadReport([ConnectionCheck(false)], [], existing, Aborted(ConnectionFailed))
    ensures r.outcome.Completed? <==>
      && backend.embedderReady
      && backend.dbReachable
      && forall k :: 0 <= k < |Batches(chunks, BatchSize)| ==> backend.writeSucceeds(k)
    ensures r.outcome.Completed? ==>
      |r.events| == |Batches(chunks, BatchSize)| + 1 && r.stored == Batches(chunks, BatchSize)
    ensures backend.embedderReady && backend.dbReachable && r.outcome.Aborted? ==> r.outcome.error.WriteFailed?
    ensures r.outcome.Aborted? && r.outcome.error.WriteFailed? ==>
      var k := r.outcome.error.batch;
      && k < |Batches(chunks, BatchSize)|
      && !backend.writeSucceeds(k)
      && (forall j :: 0 <= j < k ==> backend.writeSucceeds(j))
      && |r.events| == k + 2
      && r.stored == Batches(chunks, BatchSize)[..k]
  {
    if !backend.embedderReady then LoadReport([], [], existing, Aborted(EmbedderUnavailable))
    else
      var bs := Batches(chunks, BatchSize);
      match CheckDbConn(backend)
      case Aborted(e) => LoadReport([ConnectionCheck(false)], [], existing, Aborted(e))
      case Completed =>
        var w := WriteLoop(bs, cfg, backend.writeSucceeds);
        WriteLoopEvents(bs, cfg, backend.writeSucceeds);
        LoadReport([ConnectionCheck(true)] + w.events, w.stored, existing + Flatten(w.stored), w.outcome)
  }

  /** When the database is reachable and every write goes through, the load
      completes, having stored every chunk exactly once, in order, after what
      the collection already held. */
  lemma LoadStoresEveryChunk(chunks: seq<Document>, cfg: Config, backend: Backend, existing: seq<Document>)
    requires backend.embedderReady && backend.dbReachable
    requires forall k :: 0 <= k < |Batches(chunks, BatchSize)| ==> backend.writeSucceeds(k)
    ensures Load(chunks, cfg, backend, existing).outcome.Completed?
    ensures Flatten(Load(chunks, cfg, backend, existing).stored) == chunks
    ensures Load(chunks, cfg, backend, existing).collection == existing + chunks
  {
    FlattenBatches(chunks, BatchSize);
  }

  /** When the check passes, writes 0 to k-1 go through and the write of
      batch k fails, the load raises that write failure, and the collection
      keeps exactly the first `100 * k` chunks, stored by the earlier writes,
      and nothing after them: there is no rollback. */
  lemma LoadKeepsEarlierBatches(chunks: seq<Document>, cfg: Config, backend: Backend, existing: seq<Document>, k: nat)
    requires backend.embedderReady && backend.dbReachable
    requires k < |Batches(chunks, BatchSize)|
    requires !backend.writeSucceeds(k)
    requires forall j :: 0 <= j < k ==> backend.writeSucceeds(j)
    ensures Load(chunks, cfg, backend, existing).outcome == Aborted(WriteFailed(k))
    ensures BatchSize * k < |chunks|
    ensures Flatten(Load(chunks, cfg, backend, existing).stored) == chunks[..BatchSize * k]
    ensures Load(chunks, cfg, backend, existing).collection == existing + chunks[..BatchSize * k]
  {
    FlattenBatchesPrefix(chunks, BatchSize, k);
    BatchCountIsCeiling(|chunks|, BatchSize);
    BatchStart(|chunks|, BatchSize, k);
    OffsetIsProduct(k, BatchSize);
  }

  /** With nothing to write, the connectivity check still runs and still
      decides the outcome. */
  lemma EmptyLoadStillChecks(cfg: Config, backend: Backend, existing: seq<Document>)
    requires backend.embedderReady
    ensures Load([], cfg, backend, existing).events == [ConnectionCheck(backend.dbReachable)]
    ensures Load([], cfg, backend, existing).outcome.Completed? <==> backend.dbReachable
  {
    var none: seq<Document> := [];
    assert |Batches(none, BatchSize)| == 0;
  }

  /** At most 100 chunks go to the store in a single write, right after the check. */
  lemma SingleBatchLoad(chunks: seq<Document>, cfg: Config, backend: Backend, existing: seq<Document>)
    requires 0 < |chunks| <= BatchSize
    requires backend.embedderReady && backend.dbReachable && backend.writeSucceeds(0)
    ensures Load(chunks, cfg, backend, existing) ==
      LoadReport([ConnectionCheck(true), StoreWrite(cfg.collection, cfg.connection, chunks, true)],
                 [chunks], existing + chunks, Completed)
  {
    SingleBatch(chunks, BatchSize);
    var bs := Batches(chunks, BatchSize);
    assert bs[..0] == [];
    var w := WriteLoop(bs, cfg, backend.writeSucceeds);
    assert w == WriteReport([StoreWrite(cfg.collection, cfg.connection, chunks, true)], [chunks], Completed);
    FlattenSnoc([], chunks);
  }
}

=== FILE: results.dfy ===
/** Error taxonomy and failure-carrying results of the ingestion pipeline.
    Every exception that tools/etl.py lets propagate becomes an `Err` or an
    `Aborted` value carrying one of these errors. */
module Results {

  datatype Error =
    | LoaderFailed(path: string)   // a text or PDF loader raised while parsing the file
    | EmptyLoad(path: string)      // the loader returned no document, so `[0]` raised IndexError
    | EmbedderUnavailable          // constructing the embedding client raised
    | ConnectionFailed             // check_db_conn re-raised the database error
    | WriteFailed(batch: nat)      // storing batch number `batch` raised

  datatype Result<+T> = Ok(value: T) | Err(error: Error)

  /** Outcome of a stage that returns nothing (`None`) when it completes. */
  datatype Outcome = Completed | Aborted(error: Error)
}
